=== FILE: README.md ===
# go-requests request construction, modelled in Dafny

This project models the request-construction core of `go-requests`, a Go library that layers a fluent request builder and a cookie-keeping session over `net/http`. Its parts:

- **URL validation** (`parseURL`). The URL is parsed. When its scheme is not http or https, it is parsed once more with `http://` prepended. The base `scheme://host/path` is kept, and the query string moves into the query-parameter map.
- **Request builder** (`newRequest`, `SetHeader`, `SetQueryParam`, `SetFormParam`, their accessors, `AddFile`, `SetJSON`, `SetRawBody`, `UrlPath`). The builder is written as pure functions from the request state before a call to the state after it.
- **Body-encoding selection** (`parseBody`). The result is a tagged wire body: `JsonBody | RawBody | Multipart(fields, files) | FormUrlEncoded(values)`. It comes with the `Content-Type` header the encoder writes.
- **Flattening** (`parseParams`, `parseHeaders`). This includes the default `Accept: */*` and `User-Agent: go-requests/1.0` headers.
- **Session** (`NewSession`, the package-level session built by `init`, `SetTimeout`/`Timeout`, `SetCookies`, `Cookies`). This also covers the cookie merge `setCookies` runs before every send.
- **Method constructors**, both free (utils.go) and session-bound (methods.go).

Modules:

- `Wrappers`: `Option` and `Result`.
- `Errors` (its own file): the error kinds.
- `GoMaps`: Go's map `range` copy loop.
- `Params`: `map[string][]string`, with its replace-or-delete rule and query grouping.
- `Url`, `Sessions`, `Requests`, `Body`, `Utils` and `Methods`: one each for the corresponding part of the library.

Go map iteration order is unspecified. Every loop over a map therefore picks an arbitrary remaining key (`var k :| k in todo`), so each loop's contract holds for every order.

Several collaborators are parameters rather than code:

- `url.Parse` is a `Url.Parser` function. It is used both when a request is built and when `http.NewRequest` parses the full URL again.
- `url.Values.Encode` is an `encode` function.
- The multipart writer's boundary is a string parameter, and a writer failure is a `writerFails` flag.
- The cookie jar's cookies for the target URL are a `seq<Cookie>` argument.

Go's `nil` byte slice is the empty sequence for the body, since only its length is read. For `AddFile`'s data it is `None`, since `AddFile` tests `data != nil`.

## Model

| member | source | states |
|---|---|---|
| GoMaps.CopyInto | session.go:52-54 | after the range loop every key of the source holds the source's value and every other key of the destination keeps its own, for any iteration order |
| GoMaps.Copy | request.go:108-111 | the accessor loop yields a map equal in content to the one it copies |
| Params.Set | request.go:97-104 | a non-empty value list becomes the key's whole list, an empty one deletes the key, every other key is unchanged, and no key is ever left with an empty list |
| Params.SetLastWins | request.go:97-104 | a second setting of the same key replaces the first completely |
| Params.SetDistinctKeysCommute | request.go:116-123 | settings of two different keys do not interfere, whatever their order |
| Params.SetThenClearRestores | request.go:159-166 | setting a fresh key and then calling the setter with no values restores the original map |
| Params.Values | utils.go:29-37 | what flattening keeps has no empty list and, for a map that had none, equals the map |
| Params.Group | request.go:82-85 | the query map built from the URL has exactly the keys the query names, each with at least one value |
| Params.GroupKeepsOrder | request.go:82-85 | each key of the query map holds exactly the values the query paired with it, in query order |
| Url.Base | request.go:87 | the base is the scheme, `://`, the host and the path, in that order and nothing else. The path is the decoded one. request.go:87 drops the query string, the user info and the fragment; the model's `ParsedUrl` carries no fields for the last two |
| Url.ParseURL | request.go:50-71 | an accepted URL has scheme http or https and is the first or the retried parse; a parse error is returned without retry; an http(s) first parse is kept; otherwise acceptance is decided by the retry |
| Url.RetryIsStable | request.go:57-64 | a URL rescued by the `http://` retry validates to the same result when given in its completed form |
| Url.RejectedSchemeError | request.go:66-68 | when both attempts parse with a foreign scheme the error is the scheme refusal, not a parse error |
| Url.RetryNeverRejectsScheme | request.go:58-68 | with a parser that reads `http://…` as scheme http, the scheme refusal is never returned |
| Url.ForeignSchemeAccepted | request.go:57-69 | `ftp://x` is accepted as the URL `http://ftp://x` |
| Url.ParseURLIntended | request.go:57-68 | corrected check: accepted URLs are http(s), an explicitly named foreign scheme is refused, and otherwise it agrees with the code as written |
| Url.ForeignSchemeRefusedIntended | request.go:65-68 | the corrected check refuses `ftp://x` |
| Sessions.NewSession | session.go:33-39 | a new session has a cookie jar, no cookie overrides and a zero timeout |
| Sessions.DefaultSession | utils.go:18-26 | the package-level session has no cookie jar and no overrides |
| Sessions.SetTimeout | session.go:41-44 | the timeout becomes t; jar and overrides are untouched |
| Sessions.Timeout | session.go:46-48 | writing the current timeout back with `SetTimeout` leaves the session unchanged |
| Sessions.TimeoutRoundTrip | session.go:41-48 | `Timeout` after `SetTimeout(t)` returns t |
| Sessions.SetCookies | session.go:51-56 | a merge, not a replace: keys of the argument take its values, other overrides keep theirs, nothing else changes |
| Sessions.Cookies | session.go:59-65 | the returned map equals the overrides |
| Sessions.HasName | session.go:77-83 | the search reports exactly whether the name occurs in the cookie list |
| Sessions.MergeCookies | session.go:68-89 | with no jar nothing is written. Otherwise the written list starts with the jar's cookies unchanged and in order. Every appended cookie is an override whose name the jar lacked, carrying the override's value, with no name appended twice. Every such override is appended, and every override name occurs in the result |
| Requests.NewRequest | request.go:74-94 | construction fails exactly when URL validation fails, with its error. Otherwise the request has the given method and session and the canonical base URL. Its query keys are exactly those of the URL; headers, form parameters, files and body are empty. The builder invariant holds |
| Requests.NewRequestKeepsQueryValues | request.go:81-85 | each query parameter of a fresh request holds the URL's values for that key, in the URL's order |
| Requests.NewRequestUrlPath | request.go:81-87 | the full URL of a fresh request is the base, followed by the encoded regrouped query when the URL had one |
| Requests.SchemeRetryExample | request.go:57-60 | `example.com/a` yields the base `http://example.com/a` with no query parameters |
| Requests.SetHeader | request.go:97-104 | replace-or-delete on the headers; no other field changes; the invariant is kept |
| Requests.SetQueryParam | request.go:116-123 | replace-or-delete on the query parameters; no other field changes; the invariant is kept |
| Requests.SetFormParam | request.go:159-166 | replace-or-delete on the form parameters; no other field changes; the invariant is kept |
| Requests.Headers | request.go:107-113 | the returned map equals the headers |
| Requests.QueryParams | request.go:126-132 | the returned map equals the query parameters |
| Requests.FormParams | request.go:168-175 | as written, the returned map equals the query parameters, not the form parameters |
| Requests.FormParamsIntended | request.go:168 | corrected accessor: the returned map equals the form parameters |
| Requests.FormParamsMissesFormValues | request.go:168-175 | a form parameter set on a request without query parameters is missing from `FormParams` and present in the corrected accessor |
| Requests.UrlPath | request.go:135-141 | the full URL starts with the base URL, equals it exactly when there are no query parameters, and otherwise appends `?` and the encoded parameters |
| Requests.SetJSON | request.go:144-148 | the body is the JSON text's UTF-8 bytes and is marked JSON; nothing else changes |
| Requests.SetRawBody | request.go:152-156 | the body is the given bytes and the JSON mark is cleared; nothing else changes |
| Requests.LastBodySetterWins | request.go:144-156 | of `SetJSON` and `SetRawBody` the last call alone decides body and mark |
| Requests.AddFile | request.go:178-183 | without a field name, file name and non-nil data the request is unchanged. Otherwise exactly that field's file entry is stored or overwritten |
| Body.FirstValues | request.go:206-208 | the multipart text fields are the form keys, each with its first value |
| Body.ParseBody | request.go:185-235 | precedence: a non-empty body wins (JSON adds `application/json`, raw adds nothing); otherwise files give multipart with first form values and all files under the boundary content type; otherwise all form values urlencoded under `application/x-www-form-urlencoded`. A writer failure fails and leaves the request as it was. Otherwise it fails exactly when the full URL does not parse again, with the parser's error, and the branch's `Content-Type` is written even then. The wire request carries the method and full URL |
| Body.DecodedPathFailsReparse | request.go:87 | `http://h/%25zz` builds a request with base `http://h/%zz`, which then fails to encode because that text does not parse, with the urlencoded `Content-Type` already written |
| Body.BodyIgnoresMethod | request.go:186-190 | changing the method changes neither success, body nor headers; the GET/TRACE request of lines 187-189 is left out because every later branch replaces it |
| Body.ParseBodyKeepsValid | request.go:194-230 | the `Content-Type` writes keep the builder invariant, on success and on failure |
| Body.JsonBodyWins | request.go:192-196 | after a non-empty `SetJSON` the header is `application/json` and the body, sent verbatim as JSON even with files or form parameters present, fails only when the full URL does not parse again |
| Body.AddFileSelectsMultipart | request.go:202-228 | an accepted file turns a body-less request into a multipart one that carries that file |
| Body.MultipartDropsExtraValues | request.go:206-207 | in multipart encoding, values after the first of a form parameter have no effect |
| Body.UrlEncodedKeepsAllValues | request.go:229-232 | urlencoded encoding keeps every value of a form parameter |
| Utils.ParseParams | utils.go:29-37 | flattening keeps exactly the keys with at least one value, each with all its values in order, for any key order |
| Utils.ParseHeaders | utils.go:40-56 | every input header value is kept, and nothing else is added. `Accept: */*` is added exactly when no `Accept` value is present, and `User-Agent: go-requests/1.0` exactly when no `User-Agent` value is present |
| Utils.Method | utils.go:59-65 | a name outside the seven is refused with `MethodNotSupported`. Otherwise it fails exactly when the URL is rejected, with the URL-validation error, and the request carries that name, the package-level session and the validated base URL, and keeps the builder invariant |
| Utils.Get | utils.go:67-69 | a GET request on the package-level session, at the validated base URL, failing exactly as URL validation fails and with its error |
| Utils.Post | utils.go:71-73 | a POST request on the package-level session, at the validated base URL, failing exactly as URL validation fails and with its error |
| Utils.Put | utils.go:75-77 | a PUT request on the package-level session, at the validated base URL, failing exactly as URL validation fails and with its error |
| Utils.Delete | utils.go:79-81 | a DELETE request on the package-level session, at the validated base URL, failing exactly as URL validation fails and with its error |
| Utils.Head | utils.go:83-85 | a HEAD request on the package-level session, at the validated base URL, failing exactly as URL validation fails and with its error |
| Utils.Options | utils.go:87-89 | an OPTIONS request on the package-level session, at the validated base URL, failing exactly as URL validation fails and with its error |
| Utils.Patch | utils.go:91-93 | a PATCH request on the package-level session, at the validated base URL, failing exactly as URL validation fails and with its error |
| Utils.NamedConstructorsMatchMethod | utils.go:59-93 | each free named constructor gives the same result as the generic `Method` for its name |
| Methods.Method | methods.go:8-14 | a name outside the seven is refused with `MethodNotSupported`. Otherwise it fails exactly when the URL is rejected, with the URL-validation error, and the request carries that name, the session and the validated base URL, and keeps the builder invariant |
| Methods.Get | methods.go:16-18 | a GET request bound to the session, at the validated base URL, failing exactly as URL validation fails and with its error |
| Methods.Post | methods.go:20-22 | a POST request bound to the session, at the validated base URL, failing exactly as URL validation fails and with its error |
| Methods.Put | methods.go:24-26 | a PUT request bound to the session, at the validated base URL, failing exactly as URL validation fails and with its error |
| Methods.Delete | methods.go:28-30 | a DELETE request bound to the session, at the validated base URL, failing exactly as URL validation fails and with its error |
| Methods.Head | methods.go:32-34 | a HEAD request bound to the session, at the validated base URL, failing exactly as URL validation fails and with its error |
| Methods.Options | methods.go:36-38 | an OPTIONS request bound to the session, at the validated base URL, failing exactly as URL validation fails and with its error |
| Methods.Patch | methods.go:40-42 | as written, a TRACE request bound to the session at the validated base URL, failing exactly as URL validation fails and with its error |
| Methods.PatchIntended | methods.go:40-42 | corrected: a PATCH request bound to the session at the validated base URL, failing exactly as URL validation fails and with its error |
| Methods.PatchSendsTrace | methods.go:40-42 | the session's `Patch` sends TRACE, which its own `Method` refuses, while the free `Patch` and the corrected one send PATCH |
| Methods.NamedConstructorsMatchMethod | methods.go:8-38 | each session-bound named constructor except `Patch` gives the same result as `Method` for its name, and so does the corrected `Patch` |

## Left out

- `Send` and `SendRequestWithoutParseBody` (request.go:237-265) are left out: the transport call and response parsing are network I/O in collaborators. The steps `Send` composes are each modelled: `ParseBody`, `MergeCookies` and `ParseHeaders`.
- `url.Parse` and `url.Values.Encode` are left out. They implement generic URI syntax (section 3 of RFC 3986) and the application/x-www-form-urlencoded serialisation (section 5 of the WHATWG URL Standard), and enter the model as function parameters. The parser returns the decoded query as pairs; grouping them into a map is modelled.
- The multipart/form-data byte format and boundary generation (section 4 of RFC 7578) are left out. The boundary is an argument, and any writer error is the single flag `writerFails`.
- The quoting `FormDataContentType` applies to a boundary containing special characters is not modelled. The boundary stands for the writer's random hexadecimal token, which never needs it.
- `http.NewRequest`'s method check is not modelled: every method name the constructors use is a valid token. Its URL parse is modelled (see `Body.ParseBody`).
- Cookie-jar domain and path scoping (section 5 of RFC 6265) is left out. The jar's cookies for the URL are an input, and the merged list is what would be written back.
- Go's canonicalisation of header keys in `http.Header.Add` is left out. The model assumes keys are already canonical, so `Accept` and `User-Agent` are found only under those exact spellings.
- The TLS configuration of the package-level session (`InsecureSkipVerify`, utils.go:18-26) is left out.
- Sharing through slices and pointers is not modelled. The setters store `values[:]` and the accessors copy `values[:]`, which shares the slice's backing array. A request also points to its session. Here everything is a value, so a request holds a snapshot of its session, which only the left-out `Send` would read.
- Go map iteration order is left out, except that every loop is proved for all orders. The multipart field order is therefore unspecified.
- Concurrency is left out.
- Requests.SetJSON receives the UTF-8 bytes of the Go JSON string, so the string-to-bytes conversion at request.go:146 is outside the model. More generally, Go's byte strings (header keys and values, URLs, cookie names) are modelled as Dafny strings of Unicode scalars, so invalid UTF-8 cannot be represented. Only the body's emptiness is read, and the conversion preserves emptiness.
- `Sessions.SetTimeout` is not bounded to the 64-bit range of `time.Duration`, because no arithmetic is done on it.

## Findings

| source | as written | input that shows it | evidently intended | confidence | as-written member | corrected member |
|---|---|---|---|---|---|---|
| request.go:168-175 | `FormParams` copies `queryParams` | `SetFormParam("a", "1")` on a request without query parameters: `FormParams()` lacks `a` | a copy of the form parameters, as its comment says | high, not executed | Requests.FormParams | Requests.FormParamsIntended |
| methods.go:40-42 | the session's `Patch` builds a `"TRACE"` request | `NewSession().Patch("http://example.com/")` has method TRACE | method `"PATCH"`, as in the free `Patch` at utils.go:92 | high, not executed | Methods.Patch | Methods.PatchIntended |
| request.go:57-68 | the retry prepends `http://`, so the retried URL's scheme is always http and the refusal at line 67 is unreachable | `ftp://x` is accepted with host `ftp:` and path `//x` (`Url.ForeignSchemeAccepted`; the corrected check refuses it, `Url.ForeignSchemeRefusedIntended`) | refuse a URL that names a scheme other than http(s) | medium, not executed; depends on `url.Parse` reading the scheme before the first colon and accepting an empty port | Url.ParseURL | Url.ParseURLIntended |

`Requests.NewRequest` keeps the check as written (`Url.ParseURL`) so that constructors behave like the code. The corrected check is stated beside it.

The comment at request.go:186 says GET and TRACE requests should have no body, but the branch it guards is always overwritten, so the model leaves that first `http.NewRequest` call out. A GET request with no body or files still gets an empty urlencoded body and `Content-Type: application/x-www-form-urlencoded`. The model follows the code; `Body.BodyIgnoresMethod` states the method has no effect.

The base URL is rebuilt from the decoded path (request.go:87). A percent-encoded path therefore changes: `http://h/%25zz` becomes the base `http://h/%zz`, which `http.NewRequest` then refuses, so nothing is sent. `Body.DecodedPathFailsReparse` states this for one URL. It is not in the table above because the correction, building the base from the escaped path, would need URL fields that are not part of this model.

=== FILE: body.dfy ===
/** Body-encoding selection (request.go, `parseBody`): which of four wire
    bodies a request is sent with and the `Content-Type` that goes with it.
    The multipart byte format (RFC 7578) and the urlencoded string are not
    produced; the result names the parts each would carry. */
module Body {
  import opened Wrappers
  import opened Errors
  import opened Params
  import Url
  import opened Requests
  import Sessions

  datatype WireBody =
    /** The stored body, sent verbatim as JSON. */
    | JsonBody(json: seq<byte>)
    /** The stored body, sent verbatim with no content type added. */
    | RawBody(raw: seq<byte>)
    /** A multipart/form-data body: one text field per form parameter and one
        file part per attached file. */
    | Multipart(boundary: string, fields: map<string, string>, files: map<string, FormFile>)
    /** An application/x-www-form-urlencoded body of these parameters. */
    | FormUrlEncoded(values: Params)

  /** The request handed to the transport: method, full URL and body. */
  datatype WireRequest = WireRequest(methodName: string, url: string, body: WireBody)

  /** The outcome of `parseBody`: the request state afterwards (its headers may
      have gained a `Content-Type` even when encoding then fails) and either
      the wire request or the error. */
  datatype Encoded = Encoded(request: Request, wire: Result<WireRequest, Error>)

  const ContentType: string := "Content-Type"
  const JsonContentType: string := "application/json"
  const FormContentType: string := "application/x-www-form-urlencoded"

  /** `multipart.Writer.FormDataContentType`. `boundary` stands for the
      writer's random hexadecimal token, which never needs quoting, so the
      quoted form Go uses for other boundaries is not modelled. */
  function MultipartContentType(boundary: string): string
  {
    "multipart/form-data; boundary=" + boundary
  }

  /** The text fields of the multipart body: the first value of each form parameter. */
  function FirstValues(p: Params): (fields: map<string, string>)
    requires NoEmptyLists(p)
    ensures fields.Keys == p.Keys
    ensures forall k :: k in fields ==> |p[k]| > 0 && fields[k] == p[k][0]
  {
    map k | k in p :: p[k][0]
  }

  /** Whether the multipart branch is taken and its writer reports a failure. */
  predicate WriterFailed(r: Request, writerFails: bool)
  {
    |r.body| == 0 && |r.files| > 0 && writerFails
  }

  /** `http.NewRequest`: parses the full URL once more, failing with the
      parser's error. The method names used here are all valid tokens, so the
      method check it also makes never fails. */
  function NewHttpRequest(methodName: string, url: string, body: WireBody, parse: Url.Parser): Result<WireRequest, Error>
  {
    match parse(url)
    case Failure(e) => Failure(InvalidUrl(e))
    case Success(_) => Success(WireRequest(methodName, url, body))
  }

  /** `parseBody`. A non-empty body wins (JSON adds its content type, a raw
      body adds none); otherwise attached files make a multipart body of the
      first value of each form parameter and the files; otherwise all form
      values are urlencoded, even when there are none. Each branch writes its
      `Content-Type` before `http.NewRequest` re-parses the full URL, so a
      re-parse failure leaves that header written.
      The GET/TRACE request built first (request.go:187-189) is left out: every
      branch below assigns `req` and `err` again, and the one early return, a
      writer failure, returns an error, so that first request is never seen.
      `encode` stands for `url.Values.Encode`, `parse` for `url.Parse`,
      `boundary` for the multipart writer's boundary and `writerFails` for a
      failure of that writer, after which the request is left as it was. */
  function ParseBody(r: Request, encode: Params -> string, parse: Url.Parser, boundary: string, writerFails: bool)
    : (res: Encoded)
    requires NoEmptyLists(r.formParams)
    ensures res.request == r.(headers := res.request.headers)
    ensures WriterFailed(r, writerFails) ==> res == Encoded(r, Failure(EncodingFailed))
    ensures !WriterFailed(r, writerFails) ==>
              (res.wire.Success? <==> parse(UrlPath(r, encode)).Success?)
    ensures !WriterFailed(r, writerFails) && parse(UrlPath(r, encode)).Failure? ==>
              res.wire == Failure(InvalidUrl(parse(UrlPath(r, encode)).error))
    ensures res.wire.Success? ==>
              res.wire.value.methodName == r.methodName && res.wire.value.url == UrlPath(r, encode)
    ensures |r.body| > 0 && r.isJSON ==>
              && res.request.headers == r.headers[ContentType := [JsonContentType]]
              && (res.wire.Success? ==> res.wire.value.body == JsonBody(r.body))
    ensures |r.body| > 0 && !r.isJSON ==>
              && res.request.headers == r.headers
              && (res.wire.Success? ==> res.wire.value.body == RawBody(r.body))
    ensures |r.body| == 0 && |r.files| > 0 && !writerFails ==>
              && res.request.headers == r.headers[ContentType := [MultipartContentType(boundary)]]
              && (res.wire.Success? ==>
                    && res.wire.value.body.Multipart?
                    && res.wire.value.body.boundary == boundary
                    && res.wire.value.body.fields.Keys == r.formParams.Keys
                    && (forall k :: k in r.formParams ==> res.wire.value.body.fields[k] == r.formParams[k][0])
                    && res.wire.value.body.files == r.files)
    ensures |r.body| == 0 && |r.files| == 0 ==>
              && res.request.headers == r.headers[ContentType := [FormContentType]]
              && (res.wire.Success? ==> res.wire.value.body == FormUrlEncoded(r.formParams))
  {
    var url := UrlPath(r, encode);
    if |r.body| > 0 then
      if r.isJSON then
        Encoded(r.(headers := r.headers[ContentType := [JsonContentType]]),
                NewHttpRequest(r.methodName, url, JsonBody(r.body), parse))
      else
        Encoded(r, NewHttpRequest(r.methodName, url, RawBody(r.body), parse))
    else if |r.files| > 0 then
      if writerFails then Encoded(r, Failure(EncodingFailed))
      else
        Encoded(r.(headers := r.headers[ContentType := [MultipartContentType(boundary)]]),
                NewHttpRequest(r.methodName, url, Multipart(boundary, FirstValues(r.formParams), r.files), parse))
    else
      Encoded(r.(headers := r.headers[ContentType := [FormContentType]]),
              NewHttpRequest(r.methodName, url, FormUrlEncoded(Values(r.formParams)), parse))
  }

  /** Body selection and the resulting request state do not depend on the
      method: a GET request is encoded exactly like a POST request. */
  lemma BodyIgnoresMethod(r: Request, other: string, encode: Params -> string, parse: Url.Parser,
                          boundary: string, writerFails: bool)
    requires NoEmptyLists(r.formParams)
    ensures var a := ParseBody(r, encode, parse, boundary, writerFails);
            var b := ParseBody(r.(methodName := other), encode, parse, boundary, writerFails);
            && a.wire.Success? == b.wire.Success?
            && a.request.headers == b.request.headers
            && (a.wire.Success? ==> a.wire.value.body == b.wire.value.body)
  {
  }

  /** Encoding keeps the builder invariant, whether it succeeds or not. */
  lemma ParseBodyKeepsValid(r: Request, encode: Params -> string, parse: Url.Parser, boundary: string, writerFails: bool)
    requires Valid(r)
    ensures Valid(ParseBody(r, encode, parse, boundary, writerFails).request)
  {
  }

  /** A non-empty JSON body is sent verbatim under `application/json`,
      whatever files and form parameters the request also holds; it fails
      only when the full URL does not parse again. */
  lemma JsonBodyWins(r: Request, json: seq<byte>, encode: Params -> string, parse: Url.Parser,
                     boundary: string, writerFails: bool)
    requires NoEmptyLists(r.formParams) && |json| > 0
    ensures var res := ParseBody(SetJSON(r, json), encode, parse, boundary, writerFails);
            && res.request.headers[ContentType] == [JsonContentType]
            && (res.wire.Success? <==> parse(UrlPath(r, encode)).Success?)
            && (res.wire.Success? ==> res.wire.value.body == JsonBody(json))
  {
  }

  /** An accepted file switches a request without a body from urlencoded to
      multipart, and the file is among the parts. */
  lemma AddFileSelectsMultipart(r: Request, fieldname: string, filename: string, data: seq<byte>,
                                encode: Params -> string, parse: Url.Parser, boundary: string)
    requires NoEmptyLists(r.formParams) && |r.body| == 0
    requires fieldname != "" && filename != ""
    ensures var res := ParseBody(AddFile(r, fieldname, filename, Some(data)), encode, parse, boundary, false);
            && res.request.headers[ContentType] == [MultipartContentType(boundary)]
            && (res.wire.Success? ==>
                  res.wire.value.body.Multipart? && res.wire.value.body.files[fieldname] == FormFile(filename, data))
  {
  }

  /** Multipart encoding drops every value of a form parameter after the first:
      setting `[v]` or `[v] + rest` produces the same outcome. */
  lemma MultipartDropsExtraValues(r: Request, key: string, v: string, rest: seq<string>,
                                  encode: Params -> string, parse: Url.Parser, boundary: string)
    requires NoEmptyLists(r.formParams) && |r.body| == 0 && |r.files| > 0
    ensures ParseBody(SetFormParam(r, key, [v]), encode, parse, boundary, false).wire
         == ParseBody(SetFormParam(r, key, [v] + rest), encode, parse, boundary, false).wire
  {
    assert FirstValues(SetFormParam(r, key, [v]).formParams) == FirstValues(SetFormParam(r, key, [v] + rest).formParams);
  }

  /** The urlencoded body, unlike the multipart one, keeps every value. */
  lemma UrlEncodedKeepsAllValues(r: Request, key: string, values: seq<string>,
                                 encode: Params -> string, parse: Url.Parser, boundary: string)
    requires NoEmptyLists(r.formParams) && |r.body| == 0 && |r.files| == 0 && |values| > 0
    ensures var res := ParseBody(SetFormParam(r, key, values), encode, parse, boundary, false);
            res.wire.Success? ==> res.wire.value.body.FormUrlEncoded? && res.wire.value.body.values[key] == values
  {
  }

  /** A request can be built and still fail to encode: `newRequest` keeps the
      decoded path, so `http://h/%25zz` gives the base `http://h/%zz`, which
      `http.NewRequest` cannot parse again. The `Content-Type` header is
      written all the same. */
  lemma DecodedPathFailsReparse(parse: Url.Parser, encode: Params -> string, boundary: string)
    requires parse("http://h/%25zz") == Success(Url.ParsedUrl("http", "h", "/%zz", []))
    requires parse("http://h/%zz") == Failure("invalid URL escape \"%zz\"")
    ensures NewRequest("GET", "http://h/%25zz", Sessions.DefaultSession(), parse).Success?
    ensures var r := NewRequest("GET", "http://h/%25zz", Sessions.DefaultSession(), parse).value;
            var res := ParseBody(r, encode, parse, boundary, false);
            && res.wire == Failure(InvalidUrl("invalid URL escape \"%zz\""))
            && res.request.headers == map[ContentType := [FormContentType]]
  {
    var r := NewRequest("GET", "http://h/%25zz", Sessions.DefaultSession(), parse).value;
    assert r.url == "http://h/%zz";
    assert UrlPath(r, encode) == "http://h/%zz";
  }
}

=== FILE: errors.dfy ===
/** The errors the request-construction core can return. */
module Errors {

  datatype Error =
    /** The generic `Method` constructor was given a name outside the supported set. */
    | MethodNotSupported
    /** The URL parser rejected the text; `detail` is the parser's own message. */
    | InvalidUrl(detail: string)
    /** The URL parsed but its scheme is neither http nor https, even after the retry. */
    | SchemeNotAccepted
    /** The multipart writer reported a failure. */
    | EncodingFailed
}

=== FILE: gomaps.dfy ===
/** Go's `for k, v := range src { dst[k] = v }` over a string-keyed map.
    Go visits keys in an unspecified order; the loops below pick an arbitrary
    remaining key on every step, so the contracts hold for every order. */
module GoMaps {

  /** Writes every entry of `src` into `dst`, the entry of `src` winning on a shared key. */
  method CopyInto<V>(dst: map<string, V>, src: map<string, V>) returns (r: map<string, V>)
    ensures r.Keys == dst.Keys + src.Keys
    ensures forall k :: k in src ==> r[k] == src[k]
    ensures forall k :: k in dst && k !in src ==> r[k] == dst[k]
  {
    r := dst;
    var todo := src.Keys;
    while todo != {}
      invariant todo <= src.Keys
      invariant r.Keys == dst.Keys + (src.Keys - todo)
      invariant forall k :: k in src && k !in todo ==> r[k] == src[k]
      invariant forall k :: k in dst && (k !in src || k in todo) ==> r[k] == dst[k]
      decreases todo
    {
      var k :| k in todo;
      r := r[k := src[k]];
      todo := todo - {k};
    }
  }

  /** A fresh map with the same contents: the accessor-copy loop. */
  method Copy<V>(m: map<string, V>) returns (c: map<string, V>)
    ensures c == m
  {
    c := CopyInto(map[], m);
  }
}

=== FILE: methods.dfy ===
/** The session-bound constructors (methods.go): the same surface as the free
    functions of utils.go, binding the new request to the given session. */
module Methods {
  import opened Wrappers
  import opened Errors
  import Url
  import Sessions
  import opened Requests
  import Utils

  /** `session.Method`: the supported-name check of the free `Method`, then a
      request with that name bound to `s`. */
  function Method(s: Sessions.Session, name: string, urlPath: string, parse: Url.Parser): (r: Result<Request, Error>)
    ensures !Utils.IsSupportedMethod(name) ==> r == Failure(MethodNotSupported)
    ensures Utils.IsSupportedMethod(name) ==> (r.Success? <==> Url.ParseURL(parse, urlPath).Success?)
    ensures r.Success? ==> r.value.methodName == name && r.value.session == s
    ensures Utils.IsSupportedMethod(name) ==> BuiltAs(r, s, name, urlPath, parse)
  {
    if !Utils.IsSupportedMethod(name) then Failure(MethodNotSupported)
    else NewRequest(name, urlPath, s, parse)
  }

  function Get(s: Sessions.Session, urlPath: string, parse: Url.Parser): (r: Result<Request, Error>)
    ensures BuiltAs(r, s, "GET", urlPath, parse)
  {
    NewRequest("GET", urlPath, s, parse)
  }

  function Post(s: Sessions.Session, urlPath: string, parse: Url.Parser): (r: Result<Request, Error>)
    ensures BuiltAs(r, s, "POST", urlPath, parse)
  {
    NewRequest("POST", urlPath, s, parse)
  }

  function Put(s: Sessions.Session, urlPath: string, parse: Url.Parser): (r: Result<Request, Error>)
    ensures BuiltAs(r, s, "PUT", urlPath, parse)
  {
    NewRequest("PUT", urlPath, s, parse)
  }

  function Delete(s: Sessions.Session, urlPath: string, parse: Url.Parser): (r: Result<Request, Error>)
    ensures BuiltAs(r, s, "DELETE", urlPath, parse)
  {
    NewRequest("DELETE", urlPath, s, parse)
  }

  function Head(s: Sessions.Session, urlPath: string, parse: Url.Parser): (r: Result<Request, Error>)
    ensures BuiltAs(r, s, "HEAD", urlPath, parse)
  {
    NewRequest("HEAD", urlPath, s, parse)
  }

  function Options(s: Sessions.Session, urlPath: string, parse: Url.Parser): (r: Result<Request, Error>)
    ensures BuiltAs(r, s, "OPTIONS", urlPath, parse)
  {
    NewRequest("OPTIONS", urlPath, s, parse)
  }

  /** `session.Patch` as written: it builds a TRACE request. */
  function Patch(s: Sessions.Session, urlPath: string, parse: Url.Parser): (r: Result<Request, Error>)
    ensures BuiltAs(r, s, "TRACE", urlPath, parse)
  {
    NewRequest("TRACE", urlPath, s, parse)
  }

  /** `session.Patch` as its name and the free `Patch` intend: a PATCH request. */
  function PatchIntended(s: Sessions.Session, urlPath: string, parse: Url.Parser): (r: Result<Request, Error>)
    ensures BuiltAs(r, s, "PATCH", urlPath, parse)
  {
    NewRequest("PATCH", urlPath, s, parse)
  }

  /** A parser that reads every text as `http://example.com/`. */
  function ExampleParser(): Url.Parser
  {
    _ => Success(Url.ParsedUrl("http", "example.com", "/", []))
  }

  /** The defect shown on one URL: the session's `Patch` sends TRACE, a method
      the session's own `Method` refuses, while the free `Patch` and the
      corrected constructor send PATCH. */
  lemma PatchSendsTrace()
    ensures Patch(Sessions.NewSession(), "http://example.com/", ExampleParser()).value.methodName == "TRACE"
    ensures Method(Sessions.NewSession(), "TRACE", "http://example.com/", ExampleParser()) == Failure(MethodNotSupported)
    ensures Utils.Patch("http://example.com/", ExampleParser()).value.methodName == "PATCH"
    ensures PatchIntended(Sessions.NewSession(), "http://example.com/", ExampleParser()).value.methodName == "PATCH"
  {
  }

  /** Every session-bound constructor other than `Patch` agrees with `Method`
      for its own name, and so does the corrected `Patch`. */
  lemma NamedConstructorsMatchMethod(s: Sessions.Session, urlPath: string, parse: Url.Parser)
    ensures Get(s, urlPath, parse) == Method(s, "GET", urlPath, parse)
    ensures Post(s, urlPath, parse) == Method(s, "POST", urlPath, parse)
    ensures Put(s, urlPath, parse) == Method(s, "PUT", urlPath, parse)
    ensures Delete(s, urlPath, parse) == Method(s, "DELETE", urlPath, parse)
    ensures Head(s, urlPath, parse) == Method(s, "HEAD", urlPath, parse)
    ensures Options(s, urlPath, parse) == Method(s, "OPTIONS", urlPath, parse)
    ensures PatchIntended(s, urlPath, parse) == Method(s, "PATCH", urlPath, parse)
  {
  }
}

=== FILE: params.dfy ===
/** Go's `map[string][]string`, the shape of the request's headers, query
    parameters and form parameters, and of `url.Values`. */
module Params {

  type Params = map<string, seq<string>>

  /** The builder's invariant: a key that is present has at least one value. */
  predicate NoEmptyLists(p: Params)
  {
    forall k :: k in p ==> |p[k]| > 0
  }

  /** `after` agrees with `before` on every key other than `key`. */
  ghost predicate SameElsewhere(before: Params, after: Params, key: string)
  {
    forall k :: k != key ==> (k in after <==> k in before) && (k in after ==> after[k] == before[k])
  }

  /** The replace-or-delete rule: a non-empty `values` becomes the whole list of
      `key`, an empty `values` removes `key`, and nothing else changes. */
  ghost predicate ReplacedOrDeleted(before: Params, after: Params, key: string, values: seq<string>)
  {
    && (|values| > 0 ==> key in after && after[key] == values)
    && (|values| == 0 ==> key !in after)
    && SameElsewhere(before, after, key)
  }

  /** The shared body of `SetHeader`, `SetQueryParam` and `SetFormParam`. */
  function Set(p: Params, key: string, values: seq<string>): (r: Params)
    ensures ReplacedOrDeleted(p, r, key, values)
    ensures NoEmptyLists(p) ==> NoEmptyLists(r)
  {
    if |values| > 0 then p[key := values] else p - {key}
  }

  /** A later setting of the same key replaces an earlier one completely. */
  lemma SetLastWins(p: Params, key: string, v1: seq<string>, v2: seq<string>)
    ensures Set(Set(p, key, v1), key, v2) == Set(p, key, v2)
  {
  }

  /** Settings of two different keys do not interfere. */
  lemma SetDistinctKeysCommute(p: Params, k1: string, v1: seq<string>, k2: string, v2: seq<string>)
    requires k1 != k2
    ensures Set(Set(p, k1, v1), k2, v2) == Set(Set(p, k2, v2), k1, v1)
  {
  }

  /** Setting a fresh key and then clearing it restores the original map. */
  lemma SetThenClearRestores(p: Params, key: string, values: seq<string>)
    requires key !in p
    ensures Set(Set(p, key, values), key, []) == p
  {
  }

  /** `url.Values.Add` and `http.Header.Add`: append `value` to the list of `key`. */
  function Add(p: Params, key: string, value: string): Params
  {
    p[key := (if key in p then p[key] else []) + [value]]
  }

  /** What flattening a parameter map keeps: every key that has at least one
      value, with its values in their original order. */
  function Values(p: Params): (v: Params)
    ensures NoEmptyLists(v)
    ensures NoEmptyLists(p) ==> v == p
  {
    map k | k in p && |p[k]| > 0 :: p[k]
  }

  /** The values paired with `key` in a decoded query, in query order. */
  function ValuesOf(pairs: seq<(string, string)>, key: string): seq<string>
  {
    if |pairs| == 0 then []
    else
      var last := pairs[|pairs| - 1];
      ValuesOf(pairs[..|pairs| - 1], key) + (if last.0 == key then [last.1] else [])
  }

  /** Groups the decoded `key=value` pairs of a query string into a map,
      appending each value to its key's list (what `URL.Query()` returns). */
  function Group(pairs: seq<(string, string)>): (m: Params)
    ensures NoEmptyLists(m)
    ensures forall k :: k in m <==> exists i :: 0 <= i < |pairs| && pairs[i].0 == k
  {
    if |pairs| == 0 then map[]
    else
      var last := pairs[|pairs| - 1];
      Add(Group(pairs[..|pairs| - 1]), last.0, last.1)
  }

  /** Grouping loses no value and reorders none: each key maps to exactly the
      values the query paired with it, in query order. */
  lemma {:induction false} GroupKeepsOrder(pairs: seq<(string, string)>, key: string)
    ensures key in Group(pairs) ==> Group(pairs)[key] == ValuesOf(pairs, key)
    ensures key !in Group(pairs) ==> ValuesOf(pairs, key) == []
  {
    if |pairs| > 0 {
      GroupKeepsOrder(pairs[..|pairs| - 1], key);
    }
  }
}

=== FILE: requests.dfy ===
/** The request builder (request.go): construction from a URL and the
    chainable mutators and accessors, written as functions from the request
    state before a call to the state after it. */
module Requests {
  import opened Wrappers
  import opened Errors
  import opened Params
  import Url
  import Sessions
  import GoMaps

  newtype byte = x: int | 0 <= x < 256

  /** An attached file: the file name sent in the part header and its bytes. */
  datatype FormFile = FormFile(filename: string, data: seq<byte>)

  /** The request state. `url` is the canonical base without its query string;
      `body` is the stored body, a nil slice being the empty sequence (only its
      length is ever read); `session` is the session the request is bound to. */
  datatype Request = Request(
    session: Sessions.Session,
    methodName: string,
    url: string,
    headers: Params,
    isJSON: bool,
    body: seq<byte>,
    formParams: Params,
    queryParams: Params,
    files: map<string, FormFile>)

  /** The invariant every request built and mutated through this API keeps. */
  predicate Valid(r: Request)
  {
    NoEmptyLists(r.headers) && NoEmptyLists(r.queryParams) && NoEmptyLists(r.formParams)
  }

  /** `newRequest`: validates the URL, moves its query string into the query
      parameters and starts with no headers, form parameters, files or body. */
  function NewRequest(methodName: string, urlPath: string, s: Sessions.Session, parse: Url.Parser): (r: Result<Request, Error>)
    ensures r.Success? <==> Url.ParseURL(parse, urlPath).Success?
    ensures r.Failure? ==> r.error == Url.ParseURL(parse, urlPath).error
    ensures r.Success? ==>
              var u := Url.ParseURL(parse, urlPath).value;
              && r.value.methodName == methodName
              && r.value.session == s
              && r.value.url == Url.Base(u)
              && (forall k :: k in r.value.queryParams <==> exists i :: 0 <= i < |u.query| && u.query[i].0 == k)
              && r.value.headers == map[] && r.value.formParams == map[] && r.value.files == map[]
              && !r.value.isJSON && r.value.body == []
    ensures r.Success? ==> Valid(r.value)
  {
    match Url.ParseURL(parse, urlPath)
    case Failure(e) => Failure(e)
    case Success(u) =>
      Success(Request(s, methodName, Url.Base(u), map[], false, [], map[], Group(u.query), map[]))
  }

  /** The contract every constructor shares: bound to `s` with method
      `name` and the validated base URL, failing exactly when the URL is
      rejected, with that error. */
  ghost predicate BuiltAs(r: Result<Request, Error>, s: Sessions.Session, name: string, urlPath: string, parse: Url.Parser)
  {
    && (r.Success? <==> Url.ParseURL(parse, urlPath).Success?)
    && (r.Failure? ==> r.error == Url.ParseURL(parse, urlPath).error)
    && (r.Success? ==> r.value.methodName == name && r.value.session == s && Valid(r.value))
    && (r.Success? ==> r.value.url == Url.Base(Url.ParseURL(parse, urlPath).value))
  }

  /** The query parameters of a fresh request hold, for every key, exactly the
      values the URL paired with it, in the order the URL gave them. */
  lemma NewRequestKeepsQueryValues(methodName: string, urlPath: string, s: Sessions.Session, parse: Url.Parser, key: string)
    requires NewRequest(methodName, urlPath, s, parse).Success?
    ensures var r := NewRequest(methodName, urlPath, s, parse).value;
            var u := Url.ParseURL(parse, urlPath).value;
            (key in r.queryParams ==> r.queryParams[key] == ValuesOf(u.query, key))
            && (key !in r.queryParams ==> ValuesOf(u.query, key) == [])
  {
    GroupKeepsOrder(Url.ParseURL(parse, urlPath).value.query, key);
  }

  /** The full URL of a fresh request is the canonical base, followed by the
      URL's own query, regrouped, when it had one. */
  lemma NewRequestUrlPath(methodName: string, urlPath: string, s: Sessions.Session, parse: Url.Parser, encode: Params -> string)
    requires NewRequest(methodName, urlPath, s, parse).Success?
    ensures var r := NewRequest(methodName, urlPath, s, parse).value;
            var u := Url.ParseURL(parse, urlPath).value;
            UrlPath(r, encode) == if |u.query| == 0 then Url.Base(u) else Url.Base(u) + "?" + encode(Group(u.query))
  {
    var r := NewRequest(methodName, urlPath, s, parse).value;
    var u := Url.ParseURL(parse, urlPath).value;
    if |u.query| > 0 {
      assert u.query[0].0 in r.queryParams;
    }
  }

  /** A URL without a scheme is completed with `http://`: given a parser that
      reads `example.com/a` as a bare path and `http://example.com/a` as an
      http URL, the request's base is `http://example.com/a` with no query. */
  lemma SchemeRetryExample(methodName: string, s: Sessions.Session, parse: Url.Parser)
    requires parse("example.com/a") == Success(Url.ParsedUrl("", "", "example.com/a", []))
    requires parse("http://example.com/a") == Success(Url.ParsedUrl("http", "example.com", "/a", []))
    ensures NewRequest(methodName, "example.com/a", s, parse).Success?
    ensures NewRequest(methodName, "example.com/a", s, parse).value.url == "http://example.com/a"
    ensures NewRequest(methodName, "example.com/a", s, parse).value.queryParams == map[]
  {
    assert Url.HttpPrefix + "example.com/a" == "http://example.com/a";
  }

  /** `SetHeader`: replace-or-delete on the headers, nothing else changes. */
  function SetHeader(r: Request, key: string, values: seq<string>): (r': Request)
    ensures ReplacedOrDeleted(r.headers, r'.headers, key, values)
    ensures r' == r.(headers := r'.headers)
    ensures Valid(r) ==> Valid(r')
  {
    r.(headers := Set(r.headers, key, values))
  }

  /** `SetQueryParam`: replace-or-delete on the query parameters. */
  function SetQueryParam(r: Request, key: string, values: seq<string>): (r': Request)
    ensures ReplacedOrDeleted(r.queryParams, r'.queryParams, key, values)
    ensures r' == r.(queryParams := r'.queryParams)
    ensures Valid(r) ==> Valid(r')
  {
    r.(queryParams := Set(r.queryParams, key, values))
  }

  /** `SetFormParam`: replace-or-delete on the form parameters. */
  function SetFormParam(r: Request, key: string, values: seq<string>): (r': Request)
    ensures ReplacedOrDeleted(r.formParams, r'.formParams, key, values)
    ensures r' == r.(formParams := r'.formParams)
    ensures Valid(r) ==> Valid(r')
  {
    r.(formParams := Set(r.formParams, key, values))
  }

  /** `Headers`: a copy equal in content to the request's headers. */
  method Headers(r: Request) returns (h: Params)
    ensures h == r.headers
  {
    h := GoMaps.Copy(r.headers);
  }

  /** `QueryParams`: a copy equal in content to the request's query parameters. */
  method QueryParams(r: Request) returns (q: Params)
    ensures q == r.queryParams
  {
    q := GoMaps.Copy(r.queryParams);
  }

  /** `FormParams` as written: it copies the QUERY parameters, although its
      documentation promises a copy of the form parameters. */
  method FormParams(r: Request) returns (f: Params)
    ensures f == r.queryParams
  {
    f := GoMaps.Copy(r.queryParams);
  }

  /** `FormParams` as documented: a copy of the form parameters. */
  method FormParamsIntended(r: Request) returns (f: Params)
    ensures f == r.formParams
  {
    f := GoMaps.Copy(r.formParams);
  }

  /** A form parameter set on a fresh request is invisible to `FormParams` as
      written, and visible to the documented version. */
  method FormParamsMissesFormValues(r: Request) returns (asWritten: Params, intended: Params)
    requires r.queryParams == map[]
    ensures "a" !in asWritten
    ensures "a" in intended && intended["a"] == ["1"]
  {
    var r' := SetFormParam(r, "a", ["1"]);
    asWritten := FormParams(r');
    intended := FormParamsIntended(r');
  }

  /** `UrlPath`: the base URL, followed by `?` and the encoded query
      parameters when there are any. `encode` stands for `url.Values.Encode`. */
  function UrlPath(r: Request, encode: Params -> string): (u: string)
    ensures |r.url| <= |u| && u[..|r.url|] == r.url
    ensures u == r.url <==> |r.queryParams| == 0
    ensures |r.queryParams| > 0 ==> u == r.url + "?" + encode(Values(r.queryParams))
  {
    if |r.queryParams| > 0 then r.url + "?" + encode(Values(r.queryParams)) else r.url
  }

  /** `SetJSON`: marks the body as JSON and stores the bytes of `json`. */
  function SetJSON(r: Request, json: seq<byte>): (r': Request)
    ensures r'.isJSON && r'.body == json
    ensures r' == r.(isJSON := r'.isJSON, body := r'.body)
  {
    r.(isJSON := true, body := json)
  }

  /** `SetRawBody`: stores `body` and clears the JSON mark. */
  function SetRawBody(r: Request, body: seq<byte>): (r': Request)
    ensures !r'.isJSON && r'.body == body
    ensures r' == r.(isJSON := r'.isJSON, body := r'.body)
  {
    r.(isJSON := false, body := body)
  }

  /** Of `SetJSON` and `SetRawBody`, the call made last decides the body and its kind. */
  lemma LastBodySetterWins(r: Request, json: seq<byte>, raw: seq<byte>)
    ensures SetJSON(SetRawBody(r, raw), json) == SetJSON(r, json)
    ensures SetRawBody(SetJSON(r, json), raw) == SetRawBody(r, raw)
  {
  }

  /** The guard of `AddFile`: a field name, a file name and non-nil data. */
  predicate FileAccepted(fieldname: string, filename: string, data: Option<seq<byte>>)
  {
    fieldname != "" && filename != "" && data.Some?
  }

  /** `AddFile`: stores or overwrites the entry of `fieldname` when the guard
      holds and is a no-op otherwise; `None` stands for nil data. */
  function AddFile(r: Request, fieldname: string, filename: string, data: Option<seq<byte>>): (r': Request)
    ensures !FileAccepted(fieldname, filename, data) ==> r' == r
    ensures FileAccepted(fieldname, filename, data) ==>
              && fieldname in r'.files
              && r'.files[fieldname] == FormFile(filename, data.value)
              && r'.files.Keys == r.files.Keys + {fieldname}
              && (forall f :: f in r.files && f != fieldname ==> r'.files[f] == r.files[f])
    ensures r' == r.(files := r'.files)
  {
    if FileAccepted(fieldname, filename, data) then
      r.(files := r.files[fieldname := FormFile(filename, data.value)])
    else r
  }
}

=== FILE: sessions.dfy ===
/** The session (session.go): a cookie-override store, an optional cookie jar
    and a timeout. The jar's domain and path scoping is the jar's own business;
    the merge below receives "the jar's cookies for this URL" as a sequence. */
module Sessions {
  import opened Wrappers
  import GoMaps

  /** An `http.Cookie` reduced to the two fields the merge reads and writes. */
  datatype Cookie = Cookie(name: string, value: string)

  /** `hasJar` is whether the client carries a cookie jar; `cookies` holds the
      explicit overrides; `timeout` is the client's timeout in nanoseconds. */
  datatype Session = Session(hasJar: bool, cookies: map<string, string>, timeout: int)

  /** `NewSession`: a client with a fresh cookie jar and no overrides. */
  function NewSession(): (s: Session)
    ensures s.hasJar
    ensures s.cookies == map[]
    ensures s.timeout == 0
  {
    Session(true, map[], 0)
  }

  /** The package-level session built by `init` in utils.go: no cookie jar and
      no overrides. Its TLS settings are not part of this model. */
  function DefaultSession(): (s: Session)
    ensures !s.hasJar
    ensures s.cookies == map[]
  {
    Session(false, map[], 0)
  }

  /** `Timeout`: the client's timeout; writing it back changes nothing. */
  function Timeout(s: Session): (t: int)
    ensures SetTimeout(s, t) == s
  {
    s.timeout
  }

  /** `SetTimeout` changes the client's timeout and nothing else. */
  function SetTimeout(s: Session, timeout: int): (s': Session)
    ensures s'.timeout == timeout
    ensures s'.hasJar == s.hasJar && s'.cookies == s.cookies
  {
    s.(timeout := timeout)
  }

  /** `Timeout` after `SetTimeout(t)` returns t. */
  lemma TimeoutRoundTrip(s: Session, timeout: int)
    ensures Timeout(SetTimeout(s, timeout)) == timeout
  {
  }

  /** `SetCookies` merges `m` into the overrides: every key of `m` takes the
      value `m` gives it, every other override keeps its value. */
  method SetCookies(s: Session, m: map<string, string>) returns (s': Session)
    ensures s'.cookies.Keys == s.cookies.Keys + m.Keys
    ensures forall k :: k in m ==> s'.cookies[k] == m[k]
    ensures forall k :: k in s.cookies && k !in m ==> s'.cookies[k] == s.cookies[k]
    ensures s'.hasJar == s.hasJar && s'.timeout == s.timeout
  {
    var merged := GoMaps.CopyInto(s.cookies, m);
    s' := s.(cookies := merged);
  }

  /** `Cookies` returns a copy equal in content to the overrides. */
  method Cookies(s: Session) returns (c: map<string, string>)
    ensures c == s.cookies
  {
    c := GoMaps.Copy(s.cookies);
  }

  /** The names occurring in a cookie list. */
  function Names(cs: seq<Cookie>): set<string>
  {
    set i | 0 <= i < |cs| :: cs[i].name
  }

  /** The inner search loop of `setCookies`. */
  method HasName(cs: seq<Cookie>, name: string) returns (found: bool)
    ensures found <==> name in Names(cs)
  {
    found := false;
    var i := 0;
    while i < |cs| && !found
      invariant 0 <= i <= |cs|
      invariant found <==> exists j :: 0 <= j < i && cs[j].name == name
    {
      if cs[i].name == name {
        found := true;
      }
      i := i + 1;
    }
  }

  /** `setCookies`, run before every send: the jar's cookies for the URL, with
      an override appended for each name the jar does not already hold. The
      result is what is written back to the jar; `None` means the session has
      no jar and nothing is written. */
  method MergeCookies(s: Session, jarCookies: seq<Cookie>) returns (written: Option<seq<Cookie>>)
    ensures written.None? <==> !s.hasJar
    ensures written.Some? ==>
              && |jarCookies| <= |written.value|
              && written.value[..|jarCookies|] == jarCookies
    ensures written.Some? ==>
              forall i :: |jarCookies| <= i < |written.value| ==>
                && written.value[i].name in s.cookies
                && written.value[i].name !in Names(jarCookies)
                && written.value[i].value == s.cookies[written.value[i].name]
    ensures written.Some? ==>
              forall i, j :: |jarCookies| <= i < j < |written.value| ==> written.value[i].name != written.value[j].name
    ensures written.Some? ==>
              forall n :: n in s.cookies && n !in Names(jarCookies) ==> Cookie(n, s.cookies[n]) in written.value
    ensures written.Some? ==> forall n :: n in s.cookies ==> n in Names(written.value)
  {
    if !s.hasJar {
      return None;
    }
    var merged := jarCookies;
    var todo := s.cookies.Keys;
    while todo != {}
      invariant todo <= s.cookies.Keys
      invariant |jarCookies| <= |merged| && merged[..|jarCookies|] == jarCookies
      invariant forall i :: |jarCookies| <= i < |merged| ==>
                  && merged[i].name in s.cookies
                  && merged[i].name !in todo
                  && merged[i].name !in Names(jarCookies)
                  && merged[i].value == s.cookies[merged[i].name]
      invariant forall i, j :: |jarCookies| <= i < j < |merged| ==> merged[i].name != merged[j].name
      invariant forall n :: n in s.cookies && n !in todo && n !in Names(jarCookies) ==> Cookie(n, s.cookies[n]) in merged
      invariant forall n :: n in s.cookies && n !in todo ==> n in Names(merged)
      decreases todo
    {
      var name :| name in todo;
      var found := HasName(merged, name);
      if !found {
        merged := merged + [Cookie(name, s.cookies[name])];
      }
      todo := todo - {name};
    }
    return Some(merged);
  }
}

=== FILE: url.dfy ===
/** URL validation with a one-time scheme retry (request.go, `parseURL`). The
    URL syntax itself (section 3 of RFC 3986) is the business of an abstract
    parser handed in by the caller. */
module Url {
  import opened Wrappers
  import opened Errors

  /** What the parser extracts: scheme, host, path and the decoded query
      string as `key=value` pairs in the order the URL presents them. */
  datatype ParsedUrl = ParsedUrl(scheme: string, host: string, path: string, query: seq<(string, string)>)

  /** `url.Parse`: a parse result or the parser's error message. */
  type Parser = string -> Result<ParsedUrl, string>

  const HttpPrefix: string := "http://"

  predicate IsHttp(scheme: string)
  {
    scheme == "http" || scheme == "https"
  }

  /** The parse result accepted as it stands. */
  predicate AcceptedAsIs(p: Result<ParsedUrl, string>)
  {
    p.Success? && IsHttp(p.value.scheme)
  }

  /** Parses `urlPath`; when the scheme is not http(s), parses once more with
      `http://` prepended and accepts only an http(s) scheme the second time.
      A first attempt that fails to parse is not retried. */
  function ParseURL(parse: Parser, urlPath: string): (r: Result<ParsedUrl, Error>)
    ensures r.Success? ==> IsHttp(r.value.scheme)
    ensures r.Success? ==> parse(urlPath) == Success(r.value) || parse(HttpPrefix + urlPath) == Success(r.value)
    ensures parse(urlPath).Failure? ==> r == Failure(InvalidUrl(parse(urlPath).error))
    ensures AcceptedAsIs(parse(urlPath)) ==> r == Success(parse(urlPath).value)
    ensures parse(urlPath).Success? && !AcceptedAsIs(parse(urlPath)) ==>
              (r.Success? <==> AcceptedAsIs(parse(HttpPrefix + urlPath)))
  {
    match parse(urlPath)
    case Failure(e) => Failure(InvalidUrl(e))
    case Success(u) =>
      if IsHttp(u.scheme) then Success(u)
      else
        match parse(HttpPrefix + urlPath)
        case Failure(e) => Failure(InvalidUrl(e))
        case Success(u2) =>
          if IsHttp(u2.scheme) then Success(u2) else Failure(SchemeNotAccepted)
  }

  /** The canonical base `scheme://host/path`, built from the decoded path;
      the query string, and any user info or fragment (not among the parsed
      fields), are dropped. */
  function Base(u: ParsedUrl): (b: string)
    ensures |b| == |u.scheme| + 3 + |u.host| + |u.path|
    ensures b[..|u.scheme|] == u.scheme
    ensures b[|u.scheme|..|u.scheme| + 3] == "://"
    ensures b[|u.scheme| + 3..|u.scheme| + 3 + |u.host|] == u.host
    ensures b[|b| - |u.path|..] == u.path
  {
    u.scheme + "://" + u.host + u.path
  }

  /** Retrying once is enough: a URL that the retry rescued is accepted as it
      stands when it is validated again in its completed form. */
  lemma RetryIsStable(parse: Parser, urlPath: string)
    requires parse(urlPath).Success? && !AcceptedAsIs(parse(urlPath))
    requires ParseURL(parse, urlPath).Success?
    ensures ParseURL(parse, HttpPrefix + urlPath) == ParseURL(parse, urlPath)
  {
  }

  /** A URL with a non-http(s) scheme whose retry also parses to a non-http(s)
      scheme is rejected with `SchemeNotAccepted`, never with a parse error. */
  lemma RejectedSchemeError(parse: Parser, urlPath: string)
    requires parse(urlPath).Success? && !AcceptedAsIs(parse(urlPath))
    requires parse(HttpPrefix + urlPath).Success? && !AcceptedAsIs(parse(HttpPrefix + urlPath))
    ensures ParseURL(parse, urlPath) == Failure(SchemeNotAccepted)
  {
  }

  /** The second scheme check never fires for a parser that reads the text
      before the first colon as the scheme, as `url.Parse` does: the retried
      text starts with `http://`, so its scheme is `http`. */
  lemma RetryNeverRejectsScheme(parse: Parser, urlPath: string)
    requires parse(HttpPrefix + urlPath).Success? ==> parse(HttpPrefix + urlPath).value.scheme == "http"
    ensures ParseURL(parse, urlPath) != Failure(SchemeNotAccepted)
  {
  }

  /** `ftp://x` is accepted as written: `url.Parse` reads `http://ftp://x` as
      host `ftp:` (an empty port) and path `//x`, so the request goes to
      `http://ftp://x` instead of being refused. */
  lemma ForeignSchemeAccepted(parse: Parser)
    requires parse("ftp://x") == Success(ParsedUrl("ftp", "x", "", []))
    requires parse("http://ftp://x") == Success(ParsedUrl("http", "ftp:", "//x", []))
    ensures ParseURL(parse, "ftp://x").Success?
    ensures Base(ParseURL(parse, "ftp://x").value) == "http://ftp://x"
  {
    assert HttpPrefix + "ftp://x" == "http://ftp://x";
  }

  /** Whether the text names the parsed scheme explicitly, as `scheme://`. */
  predicate NamesScheme(u: ParsedUrl, urlPath: string)
  {
    |u.scheme| > 0 && |u.scheme| + 3 <= |urlPath| && urlPath[|u.scheme|..|u.scheme| + 3] == "://"
  }

  /** `parseURL` as its comments intend: http is only the default for a URL
      that does not name its scheme; a named scheme other than http(s) is
      refused without a retry. */
  function ParseURLIntended(parse: Parser, urlPath: string): (r: Result<ParsedUrl, Error>)
    ensures r.Success? ==> IsHttp(r.value.scheme)
    ensures (parse(urlPath).Success? && NamesScheme(parse(urlPath).value, urlPath) && !IsHttp(parse(urlPath).value.scheme))
            ==> r == Failure(SchemeNotAccepted)
    ensures parse(urlPath).Success? && !NamesScheme(parse(urlPath).value, urlPath) ==> r == ParseURL(parse, urlPath)
    ensures (parse(urlPath).Failure? || AcceptedAsIs(parse(urlPath))) ==> r == ParseURL(parse, urlPath)
  {
    match parse(urlPath)
    case Failure(e) => Failure(InvalidUrl(e))
    case Success(u) =>
      if IsHttp(u.scheme) then Success(u)
      else if NamesScheme(u, urlPath) then Failure(SchemeNotAccepted)
      else ParseURL(parse, urlPath)
  }

  /** The corrected check refuses `ftp://x` whatever the retry would give. */
  lemma ForeignSchemeRefusedIntended(parse: Parser)
    requires parse("ftp://x") == Success(ParsedUrl("ftp", "x", "", []))
    ensures ParseURLIntended(parse, "ftp://x") == Failure(SchemeNotAccepted)
  {
    assert "ftp://x"[3..6] == "://";
  }
}

=== FILE: utils.dfy ===
/** Parameter and header flattening and the free-function constructors bound
    to the package-level session (utils.go). Header keys are taken to be in
    Go's canonical form already, so `http.Header.Add` appends like `url.Values.Add`. */
module Utils {
  import opened Wrappers
  import opened Errors
  import opened Params
  import Url
  import Sessions
  import opened Requests

  const Version: string := "1.0"
  const DefaultAccept: string := "*/*"
  const DefaultUserAgent: string := "go-requests/" + Version

  /** The seven method names the generic constructors accept. */
  predicate IsSupportedMethod(name: string)
  {
    name == "GET" || name == "POST" || name == "PUT" || name == "DELETE" ||
    name == "HEAD" || name == "OPTIONS" || name == "PATCH"
  }

  /** `parseParams`: adds every value of every key, key by key in map order
      and value by value in list order, to an empty `url.Values`. */
  method ParseParams(params: Params) returns (v: Params)
    ensures forall k :: k in v <==> k in params && |params[k]| > 0
    ensures forall k :: k in v ==> v[k] == params[k]
    ensures v == Values(params)
  {
    v := map[];
    var todo := params.Keys;
    while todo != {}
      invariant todo <= params.Keys
      invariant forall k :: k in v <==> k in params && k !in todo && |params[k]| > 0
      invariant forall k :: k in v ==> v[k] == params[k]
      decreases todo
    {
      var key :| key in todo;
      var values := params[key];
      var j := 0;
      while j < |values|
        invariant 0 <= j <= |values|
        invariant j == 0 ==> key !in v
        invariant j > 0 ==> key in v && v[key] == values[..j]
        invariant forall k :: k != key ==> (k in v <==> k in params && k !in todo && |params[k]| > 0)
        invariant forall k :: k != key && k in v ==> v[k] == params[k]
      {
        v := Add(v, key, values[j]);
        j := j + 1;
      }
      assert values[..j] == values;
      todo := todo - {key};
    }
  }

  /** Whether flattening keeps `key`: it is present with at least one value. */
  predicate HasValues(p: Params, key: string)
  {
    key in p && |p[key]| > 0
  }

  /** `parseHeaders`: flattens the headers and adds a default `Accept` and the
      library's `User-Agent` exactly when the flattened headers lack them. */
  method ParseHeaders(headers: Params) returns (h: Params)
    ensures forall k :: HasValues(headers, k) ==> k in h && h[k] == headers[k]
    ensures forall k :: k in h ==> HasValues(headers, k) || k == "Accept" || k == "User-Agent"
    ensures "Accept" in h && h["Accept"] == (if HasValues(headers, "Accept") then headers["Accept"] else [DefaultAccept])
    ensures "User-Agent" in h && h["User-Agent"] == (if HasValues(headers, "User-Agent") then headers["User-Agent"] else [DefaultUserAgent])
    ensures NoEmptyLists(h)
  {
    h := ParseParams(headers);
    if "Accept" !in h {
      h := Add(h, "Accept", DefaultAccept);
    }
    if "User-Agent" !in h {
      h := Add(h, "User-Agent", DefaultUserAgent);
    }
  }

  /** The free `Method`: rejects a name outside the supported set, otherwise
      builds a request with that name on the package-level session. */
  function Method(name: string, urlPath: string, parse: Url.Parser): (r: Result<Request, Error>)
    ensures !IsSupportedMethod(name) ==> r == Failure(MethodNotSupported)
    ensures IsSupportedMethod(name) ==> (r.Success? <==> Url.ParseURL(parse, urlPath).Success?)
    ensures r.Success? ==> r.value.methodName == name && r.value.session == Sessions.DefaultSession()
    ensures IsSupportedMethod(name) ==> BuiltAs(r, Sessions.DefaultSession(), name, urlPath, parse)
  {
    if !IsSupportedMethod(name) then Failure(MethodNotSupported)
    else NewRequest(name, urlPath, Sessions.DefaultSession(), parse)
  }

  function Get(urlPath: string, parse: Url.Parser): (r: Result<Request, Error>)
    ensures BuiltAs(r, Sessions.DefaultSession(), "GET", urlPath, parse)
  {
    NewRequest("GET", urlPath, Sessions.DefaultSession(), parse)
  }

  function Post(urlPath: string, parse: Url.Parser): (r: Result<Request, Error>)
    ensures BuiltAs(r, Sessions.DefaultSession(), "POST", urlPath, parse)
  {
    NewRequest("POST", urlPath, Sessions.DefaultSession(), parse)
  }

  function Put(urlPath: string, parse: Url.Parser): (r: Result<Request, Error>)
    ensures BuiltAs(r, Sessions.DefaultSession(), "PUT", urlPath, parse)
  {
    NewRequest("PUT", urlPath, Sessions.DefaultSession(), parse)
  }

  function Delete(urlPath: string, parse: Url.Parser): (r: Result<Request, Error>)
    ensures BuiltAs(r, Sessions.DefaultSession(), "DELETE", urlPath, parse)
  {
    NewRequest("DELETE", urlPath, Sessions.DefaultSession(), parse)
  }

  function Head(urlPath: string, parse: Url.Parser): (r: Result<Request, Error>)
    ensures BuiltAs(r, Sessions.DefaultSession(), "HEAD", urlPath, parse)
  {
    NewRequest("HEAD", urlPath, Sessions.DefaultSession(), parse)
  }

  function Options(urlPath: string, parse: Url.Parser): (r: Result<Request, Error>)
    ensures BuiltAs(r, Sessions.DefaultSession(), "OPTIONS", urlPath, parse)
  {
    NewRequest("OPTIONS", urlPath, Sessions.DefaultSession(), parse)
  }

  function Patch(urlPath: string, parse: Url.Parser): (r: Result<Request, Error>)
    ensures BuiltAs(r, Sessions.DefaultSession(), "PATCH", urlPath, parse)
  {
    NewRequest("PATCH", urlPath, Sessions.DefaultSession(), parse)
  }

  /** Each named constructor agrees with the generic `Method` for its name. */
  lemma NamedConstructorsMatchMethod(urlPath: string, parse: Url.Parser)
    ensures Get(urlPath, parse) == Method("GET", urlPath, parse)
    ensures Post(urlPath, parse) == Method("POST", urlPath, parse)
    ensures Put(urlPath, parse) == Method("PUT", urlPath, parse)
    ensures Delete(urlPath, parse) == Method("DELETE", urlPath, parse)
    ensures Head(urlPath, parse) == Method("HEAD", urlPath, parse)
    ensures Options(urlPath, parse) == Method("OPTIONS", urlPath, parse)
    ensures Patch(urlPath, parse) == Method("PATCH", urlPath, parse)
  {
  }
}

=== FILE: wrappers.dfy ===
/** Option and Result, for Go's `(value, error)` returns and nil-able values. */
module Wrappers {

  /** A value that may be absent; `None` stands for Go's `nil`. */
  datatype Option<+T> = None | Some(value: T)

  /** Either a value or an error, as a Go function returning `(T, error)`. */
  datatype Result<+T, +E> = Success(value: T) | Failure(error: E)
}
